=== FILE: README.md ===
# RM resource manager: a Dafny model

RM is a browser-side resource loader. It adds `<script>` and
`<link rel="stylesheet">` elements to a page on demand and remembers every URL it
has seen. A URL that loaded, or is loading, is not requested again; a URL whose
load failed is requested again by the next call for it. For each kind (scripts,
CSS) it keeps a registry. A registry is an ordered list of records
`{url, state}`, and `state` is one of `new`, `pending`, `fulfilled` or `rejected`.
A pending record also holds the in-flight promise that every concurrent caller
shares. The methods of `RESOURCE_MANAGER` are:

- `loadScript(url)` and `loadCss(url)`: load one URL through the per-URL state
  machine, or load an array of URLs one after another through `recursiveLoad`;
- `loadPlugin({css, js})`: load the CSS first and the scripts afterwards.

A helper of the enclosing module, `initResources` (source/rm.js:56-66), runs from
the `DOMContentLoaded` listener (source/rm.js:217-224) and marks the URLs already on
the page as `fulfilled`.

The model consists of three modules.

- `Resources` (`resources.dfy`) holds the record and registry values.
  - `FindResource` is the first-match lookup.
  - `Seed` is the startup fold of `initResources` over a list of attribute values.
  - The lemmas cover lookups after appends and updates, and what seeding adds.
- `BatchLoad` (`batch.dfy`) holds the pure model of `recursiveLoad`, as
  `RecursiveLoad(urls, ok, counter)`. `ok(u)` says whether the per-item load of
  `u` resolves. It also models the two argument forms (`TargetRun`) and `loadPlugin`
  (`PluginLoad`), with lemmas on order, fail-fast and the iteration cap.
- `Manager` (`manager.dfy`) holds `class ResourceManager`, with the two registries
  as `seq<Record>` fields. The asynchronous single-URL load is split at its one
  suspension point:
  - `Request` is the synchronous part: lookup, the short-circuit for a fulfilled
    record, joining a pending record's signal, or starting a DOM load.
  - `Settle` is the continuation that runs when the DOM load fires its load or
    error event.

  Promises are represented by signal numbers, and records by their index in the
  registry. Ghost logs record three things: every single-URL call, every DOM loader
  invocation, and every settlement. The class invariant `Valid()` states three facts:
  - a signal is stored exactly while a record is pending;
  - a pending record is the one lookup finds for its URL;
  - for every URL, the DOM loads started equal the loads settled, plus one while
    the URL is pending. So at most one DOM load per URL is ever in flight.

  `LoadSingle`, `LoadBatch`/`LoadFirst`, `Load` and `LoadPlugin` run the source's
  composite operations on the class. A DOM outcome oracle `dom(kind, url)` stands in
  for the browser. Each of these methods is proved to settle exactly as the pure
  `BatchLoad` functions say, given the outcome each URL has at the start. Each is also
  proved to call the per-item loader for exactly the attempted items, in order, and
  to leave the registry as those loads do (`AfterLoads`): an attempted url ends
  fulfilled, except a failing one, which ends rejected, and every other url keeps
  its state. They are also proved to start DOM loads only for attempted urls that
  were not fulfilled (`NewLoads`).

`loadScript` and `loadCss` (source/rm.js:135-160 and 166-191) are copies of each
other that differ only in the registry and in the DOM primitive. They are modelled
once, parameterised by `Kind`.

Three behaviours of the code that its names and comments do not suggest; the
model follows the code:

- The batch cap allows 21 loads, not 20. The comment on `MAX_RECURSIVE_LOAD = 20`
  (source/rm.js:9-10) calls it the maximum number of files to add from an array,
  but `counter > MAX_RECURSIVE_LOAD` is checked before each load (source/rm.js:115)
  and the counter starts at 0. `BatchLoad.LimitExact` proves that every batch of more than 21 loadable
  URLs loads exactly its first 21 and then resolves. `BatchLoad.AllLoaded` proves
  that a batch of 21 loads them all.
- An empty entry restarts the counter at 0, because the recursive call on
  source/rm.js:120 omits the counter (`BatchLoad.EmptyEntryResets`). So the cap
  only bounds runs without empty entries (`BatchLoad.LimitBound`).
- "One record per URL" is not an invariant. `initResources` appends a fulfilled
  record when the first record for a URL is `rejected`. The appended record is
  shadowed by first-match lookup, and one is added for every occurrence on the page
  (`Resources.SeedCount`). Single-URL loads never add a record for a URL that is
  already registered (`Request`). What the model keeps as an invariant is "a pending
  record is the one lookup finds".

## Model

| member | source | states |
|---|---|---|
| Resources.FindFrom | source/rm.js:35 | the index found from `from` on holds the url, and no record between `from` and it does; None means no record from `from` on has the url |
| Resources.FindResource | source/rm.js:33-37 | the result is the index of the FIRST record with the url; None exactly when no record has it |
| Resources.FindAppend | source/rm.js:46-50 | appending a record does not change the lookup of a url that is already present; it makes a new url findable at the new last index and leaves every other url absent |
| Resources.FindUpdate | source/rm.js:144-154 | changing a record's state or signal in place (same url) changes no lookup |
| Resources.SeedOne | source/rm.js:60-64 | one step of the startup scan either leaves the registry as it is or appends one fulfilled, signal-free record for the value; it appends exactly when the value is non-empty and lookup finds no record for it, or finds a rejected one |
| Resources.Seed | source/rm.js:56-66 | the startup scan over the page's values in document order keeps every existing record in place and appends at most one record per value |
| Resources.SeedExtends | source/rm.js:56-66 | seeding keeps every earlier record as it was and only appends fulfilled, signal-free records whose url is a non-empty value from the page |
| Resources.SeedLookup | source/rm.js:59-64 | after seeding, lookup still finds the record it found before, a rejected one included; a url that was not registered and appears non-empty on the page is found fulfilled; everything else stays absent |
| Resources.SeedCount | source/rm.js:59-64 | the number of records seeding adds under a url: 0 for "" or for a url whose first record is not rejected; 1 for a new url on the page; one per occurrence on the page when the first record is rejected |
| Manager.ResourceManager.constructor | source/rm.js:209-212 | both registries and all logs start empty, and the invariant holds |
| Manager.ResourceManager.AddNewResource | source/rm.js:46-50 | an empty url returns None and changes nothing; otherwise exactly `Record(url, state, no signal)` is appended at the end, its index is returned, and earlier records and the other registry are unchanged |
| Manager.ResourceManager.InitResources | source/rm.js:56-66 | the registry becomes `Seed(old registry, values)`, with the other registry, the logs and the invariant preserved |
| Manager.ResourceManager.Request | source/rm.js:137-146 | a fulfilled first match returns AlreadyLoaded, and a pending one returns Joined with its stored signal; neither changes a registry or starts a DOM load; a new or rejected match, or a new url (appended first), becomes pending with a fresh signal, and exactly one DOM load is logged |
| Manager.ResourceManager.Begin | source/rm.js:144-146 | the record becomes pending with the fresh signal `nextSignal`, and one DOM load of its url is logged |
| Manager.ResourceManager.Settle | source/rm.js:147-157 | the pending record becomes fulfilled (resolves with the record) or rejected (rejects with LoadFailed(kind, url)); its signal is removed, one settlement is logged, and the invariant holds |
| Manager.ResourceManager.InFlightAtMostOne | source/rm.js:143-159 | DOM loads started for a url exceed those settled by at most one, and by exactly one while the url is pending |
| Manager.ResourceManager.LoadSingle | source/rm.js:137-159 | an awaited single-url call resolves exactly when the url was fulfilled or its DOM load succeeds; it resolves with the record lookup finds for the url, which is then fulfilled; it starts one DOM load for a new or rejected url and none for a fulfilled or pending one; it appends a record only for a url with none; on reject it is rejected and the error names the url; a url is fulfilled afterwards exactly when it was before or it is this url and its DOM load succeeds; every other url keeps its state |
| Manager.ResourceManager.LoadBatch | source/rm.js:113-127 | the batch settles as `RecursiveLoad` does with each url's start-of-batch outcome; the single-url loader is called for exactly the attempted items, in order; every attempted url but the failing one ends fulfilled, the failing one ends rejected, urls not attempted keep their state; DOM loads are started only for attempted urls that were not fulfilled at the start, and the load log only grows |
| Manager.ResourceManager.LoadFirst | source/rm.js:119-126 | the same for a batch whose first item is non-empty and below the limit: load it, then continue with counter + 1, or reject with its url |
| Manager.ResourceManager.Load | source/rm.js:135-136 | an array goes through the batch with a fresh counter, and a single url through one awaited load; the result, the loader calls and the registry afterwards are those of `TargetRun`'s attempted items, with the failing url rejected; a single url resolves with the record lookup finds for it, and an array resolves with no value; DOM loads only for attempted urls not fulfilled at the start |
| Manager.ResourceManager.LoadPlugin | source/rm.js:200-207 | the outcome and the loader calls are those of `PluginLoad`, every CSS call before every script call; the CSS registry is left as loading the attempted stylesheets leaves it and the script registry likewise; the url a failure names ends rejected in its kind's registry; the load log grows by CSS loads of attempted stylesheets not fulfilled at the start, then script loads of attempted scripts likewise |
| Manager.LoadThenReload | source/rm.js:137-141 | once an awaited load of a url resolved, the next call for it returns AlreadyLoaded and starts no DOM load |
| Manager.SharedLoadThenRetry | source/rm.js:143-159 | two calls before settlement share one signal and one DOM load; after a failure the same record is retried with a new signal; after success a call short-circuits; two DOM loads in all |
| Manager.StartupScanSkipsReload | source/rm.js:59-64 | a url found on the page at startup is AlreadyLoaded and starts no DOM load |
| BatchLoad.RecursiveLoad | source/rm.js:113-127 | every attempted item is a non-empty input entry; a failure is the last attempted item and did not load; every other attempted item loaded (fail-fast) |
| BatchLoad.AttemptedIsPrefix | source/rm.js:119-126 | the attempted items are the non-empty entries of an input prefix, in order; `Done` means every entry was processed, and `LimitReached` means some entry was left |
| BatchLoad.LimitBound | source/rm.js:115-118 | without empty entries, at most MaxRecursiveLoad + 1 - counter items are attempted |
| BatchLoad.LimitExact | source/rm.js:115-123 | when every item loads and more than 21 - counter remain, exactly the first 21 - counter load and the batch resolves as LimitReached |
| BatchLoad.AllLoaded | source/rm.js:113-126 | when every item loads and at most 21 - counter are given, all of them load in order and the batch resolves Done |
| BatchLoad.EmptyEntryResets | source/rm.js:120 | an empty entry reached below the limit is skipped, and the rest runs as a fresh batch with counter 0 |
| BatchLoad.TargetRun | source/rm.js:135-136 | a single url is one attempt that resolves exactly when it loads; a failure is the last attempt and did not load |
| BatchLoad.PluginLoad | source/rm.js:200-207 | a plugin load resolves exactly when every stylesheet and every script it attempted loaded |
| BatchLoad.PluginCssFirst | source/rm.js:200-207 | scripts are attempted only after every attempted stylesheet loaded; a CSS failure rejects with that error and attempts no script; a script failure rejects with the failing script's error |
| BatchLoad.PluginAllLoaded | source/rm.js:200-207 | with one stylesheet and one script, the plugin resolves exactly when both load |

## Left out

- Logging (`logMsg`, source/rm.js:18-25) is clock-dependent console output. The
  log lines, including "limit reached" and "already loaded", are not modelled.
- The DOM loader primitives (source/rm.js:73-104) create an element, append it to
  the document head and remove it on error. They are replaced by a logged
  invocation in `Begin` and by the outcome passed to `Settle`. The text of the
  error message is not modelled; `LoadFailed(kind, url)` carries the kind and the url.
- Promises and asynchrony are not modelled as concurrency. Overlapping calls are
  sequences of `Request` and `Settle` steps.
- Manager.ResourceManager.LoadSingle: the composite methods assume that every DOM
  load of a url settles with the same outcome `dom(kind, url)`, and that nothing
  else runs while they wait. They settle an in-flight load they join themselves.
  Another caller changing a url's state while a batch waits on an earlier item
  (an interleaving) is covered only by explicit `Request`/`Settle` steps.
- Records are returned by their registry index, not as shared mutable objects.
- The singleton guard on `window.RM` and the `DOMContentLoaded` listener
  (source/rm.js:215-225) are global-object plumbing. Only the `initResources` fold
  over a given list of attribute values is modelled.
- `findResource`'s "not an array" branch is not modelled, because the registries
  are always sequences.
- A single-URL call with an empty url writes properties on `false` and throws a
  TypeError in the source. The model requires a non-empty url (`ValidTarget`).
- `loadPlugin` with a missing `css` or `js` field rejects with a TypeError in the
  source. The model requires both fields (`ValidTarget`).
- Nested arrays as batch items, which re-dispatch through `loadScript` with a fresh
  counter, are not modelled. Batch items are strings.
- Build tooling (gulpfile.js), the demo page (test/public/main.js) and the static
  test server (test/server.js) are not part of this model.

=== FILE: batch.dfy ===
/** recursiveLoad and loadPlugin as pure functions of the URLs and of the outcome
    each single-URL load settles with. */
module BatchLoad {
  import opened Resources

  /** MAX_RECURSIVE_LOAD: the counter is compared with it BEFORE each load. */
  const MaxRecursiveLoad: nat := 20

  /** How a batch settles. `Done` and `LimitReached` both resolve (the limit is a
      logged soft stop); `Failed` rejects with the error of the item that failed. */
  datatype BatchResult = Done | LimitReached | Failed(url: string)

  /** The items handed to the per-item loader, in order, and how the batch settled. */
  datatype BatchRun = BatchRun(attempted: seq<string>, result: BatchResult)

  /** The non-empty entries of a URL list, in order. */
  function NonEmpty(urls: seq<string>): seq<string>
  {
    if urls == [] then []
    else (if urls[0] == "" then [] else [urls[0]]) + NonEmpty(urls[1..])
  }

  /** recursiveLoad(urls, loadMethod, counter): `ok(u)` is whether the per-item
      load of `u` resolves. Items are loaded strictly in order, each after the
      previous one resolved; the first failure ends the batch. An empty entry is
      skipped by a call that omits the counter, so the counter restarts at 0. */
  function RecursiveLoad(urls: seq<string>, ok: string -> bool, counter: nat): (r: BatchRun)
    ensures forall u :: u in r.attempted ==> u in urls && u != ""
    ensures r.result.Failed? ==>
      |r.attempted| > 0 && r.attempted[|r.attempted| - 1] == r.result.url && !ok(r.result.url)
    ensures forall i :: 0 <= i < |r.attempted| && !(r.result.Failed? && i == |r.attempted| - 1) ==>
      ok(r.attempted[i])
    decreases |urls|
  {
    if |urls| == 0 then BatchRun([], Done)
    else if counter > MaxRecursiveLoad then BatchRun([], LimitReached)
    else if urls[0] == "" then RecursiveLoad(urls[1..], ok, 0)
    else if !ok(urls[0]) then BatchRun([urls[0]], Failed(urls[0]))
    else
      var rest := RecursiveLoad(urls[1..], ok, counter + 1);
      BatchRun([urls[0]] + rest.attempted, rest.result)
  }

  /** The non-empty entries of a prefix of length k + 1: the first entry's, then
      those of the tail's prefix of length k. */
  lemma NonEmptyPrefix(urls: seq<string>, k: nat)
    requires k < |urls|
    ensures NonEmpty(urls[..k + 1]) == (if urls[0] == "" then [] else [urls[0]]) + NonEmpty(urls[1..][..k])
  {
    assert urls[..k + 1][1..] == urls[1..][..k];
  }

  /** The attempted items are exactly the non-empty entries of some prefix of the
      input: order is kept and nothing is attempted after the batch stops. A batch
      that ends `Done` attempted every non-empty entry; one that hit the limit
      left at least one entry unprocessed. */
  lemma {:induction false} AttemptedIsPrefix(urls: seq<string>, ok: string -> bool, counter: nat)
    ensures var r := RecursiveLoad(urls, ok, counter);
      exists k :: 0 <= k <= |urls| && r.attempted == NonEmpty(urls[..k])
        && (r.result == Done ==> k == |urls|)
        && (r.result == LimitReached ==> k < |urls|)
    decreases |urls|
  {
    var r := RecursiveLoad(urls, ok, counter);
    if |urls| == 0 || counter > MaxRecursiveLoad {
      assert r.attempted == NonEmpty(urls[..0]);
    } else if urls[0] == "" || ok(urls[0]) {
      var tail := urls[1..];
      var c := if urls[0] == "" then 0 else counter + 1;
      var rest := RecursiveLoad(tail, ok, c);
      assert r == BatchRun((if urls[0] == "" then [] else [urls[0]]) + rest.attempted, rest.result);
      AttemptedIsPrefix(tail, ok, c);
      var k :| 0 <= k <= |tail| && rest.attempted == NonEmpty(tail[..k])
        && (rest.result == Done ==> k == |tail|)
        && (rest.result == LimitReached ==> k < |tail|);
      NonEmptyPrefix(urls, k);
      assert r.attempted == NonEmpty(urls[..k + 1]);
    } else {
      NonEmptyPrefix(urls, 0);
      assert r.attempted == NonEmpty(urls[..1]);
    }
  }

  /** With no empty entries to reset it, a batch started at `counter` attempts at
      most MaxRecursiveLoad + 1 - counter items. */
  lemma {:induction false} LimitBound(urls: seq<string>, ok: string -> bool, counter: nat)
    requires forall i :: 0 <= i < |urls| ==> urls[i] != ""
    requires counter <= MaxRecursiveLoad + 1
    ensures |RecursiveLoad(urls, ok, counter).attempted| <= MaxRecursiveLoad + 1 - counter
    decreases |urls|
  {
    if |urls| > 0 && counter <= MaxRecursiveLoad && ok(urls[0]) {
      LimitBound(urls[1..], ok, counter + 1);
    }
  }

  /** The limit as written: when every item loads, exactly MaxRecursiveLoad + 1
      items (21) load from a fresh counter and the batch then resolves as
      `LimitReached` without loading the rest. */
  lemma {:induction false} LimitExact(urls: seq<string>, ok: string -> bool, counter: nat)
    requires forall i :: 0 <= i < |urls| ==> urls[i] != "" && ok(urls[i])
    requires counter <= MaxRecursiveLoad + 1 < |urls| + counter
    ensures RecursiveLoad(urls, ok, counter) ==
      BatchRun(urls[..MaxRecursiveLoad + 1 - counter], LimitReached)
    decreases |urls|
  {
    if counter <= MaxRecursiveLoad {
      LimitExact(urls[1..], ok, counter + 1);
      assert urls[..MaxRecursiveLoad + 1 - counter] ==
        [urls[0]] + urls[1..][..MaxRecursiveLoad + 1 - (counter + 1)];
    }
  }

  /** When every item loads and the batch is within the limit, every item is
      loaded in order and the batch resolves `Done`. */
  lemma {:induction false} AllLoaded(urls: seq<string>, ok: string -> bool, counter: nat)
    requires forall i :: 0 <= i < |urls| ==> urls[i] != "" && ok(urls[i])
    requires |urls| + counter <= MaxRecursiveLoad + 1
    ensures RecursiveLoad(urls, ok, counter) == BatchRun(urls, Done)
    decreases |urls|
  {
    if |urls| > 0 {
      AllLoaded(urls[1..], ok, counter + 1);
      assert urls == [urls[0]] + urls[1..];
    }
  }

  /** An empty entry reached below the limit restarts the count: the rest of the
      batch runs as a fresh batch with counter 0. */
  lemma {:induction false} EmptyEntryResets(xs: seq<string>, ys: seq<string>, ok: string -> bool, counter: nat)
    requires forall i :: 0 <= i < |xs| ==> xs[i] != "" && ok(xs[i])
    requires counter + |xs| <= MaxRecursiveLoad
    ensures var rest := RecursiveLoad(ys, ok, 0);
      RecursiveLoad(xs + [""] + ys, ok, counter) == BatchRun(xs + rest.attempted, rest.result)
    decreases |xs|
  {
    if xs == [] {
      assert ([""] + ys)[1..] == ys;
    } else {
      assert (xs + [""] + ys)[1..] == xs[1..] + [""] + ys;
      EmptyEntryResets(xs[1..], ys, ok, counter + 1);
      assert xs == [xs[0]] + xs[1..];
    }
  }

  /** One step of the recursion on a non-empty item that loads below the limit. */
  lemma RecursiveLoadStep(urls: seq<string>, ok: string -> bool, counter: nat)
    requires |urls| > 0 && urls[0] != "" && counter <= MaxRecursiveLoad && ok(urls[0])
    ensures var rest := RecursiveLoad(urls[1..], ok, counter + 1);
      RecursiveLoad(urls, ok, counter) == BatchRun([urls[0]] + rest.attempted, rest.result)
  {
  }

  /** Two outcome functions that agree on every url give the same run. */
  lemma {:induction false} RecursiveLoadCongruent(urls: seq<string>, ok1: string -> bool, ok2: string -> bool, counter: nat)
    requires forall u :: ok1(u) == ok2(u)
    ensures RecursiveLoad(urls, ok1, counter) == RecursiveLoad(urls, ok2, counter)
    decreases |urls|
  {
    if |urls| > 0 && counter <= MaxRecursiveLoad {
      RecursiveLoadCongruent(urls[1..], ok1, ok2, if urls[0] == "" then 0 else counter + 1);
    }
  }

  /** The argument of loadScript / loadCss: a single URL or an array of URLs. */
  datatype Target = One(url: string) | Many(urls: seq<string>)

  /** A single URL must be non-empty (the source fails with a TypeError otherwise). */
  predicate ValidTarget(t: Target)
  {
    t.One? ==> t.url != ""
  }

  /** loadScript / loadCss on either form of argument: an array goes through
      recursiveLoad with a fresh counter; a single URL is one load. */
  function TargetRun(t: Target, ok: string -> bool): (r: BatchRun)
    requires ValidTarget(t)
    ensures t.One? ==> r.attempted == [t.url] && (r.result == Done <==> ok(t.url))
    ensures r.result.Failed? ==> |r.attempted| > 0 && r.result.url == r.attempted[|r.attempted| - 1]
    ensures r.result.Failed? ==> !ok(r.result.url)
  {
    match t
    case One(u) => BatchRun([u], if ok(u) then Done else Failed(u))
    case Many(us) => RecursiveLoad(us, ok, 0)
  }

  /** The two phases of a plugin load and how it settles (None: resolved). */
  datatype PluginRun = PluginRun(cssAttempted: seq<string>, jsAttempted: seq<string>, failure: Option<Error>)

  /** loadPlugin: the CSS phase, then, only if it resolved, the script phase. */
  function PluginLoad(css: Target, js: Target, cssOk: string -> bool, jsOk: string -> bool): (r: PluginRun)
    requires ValidTarget(css) && ValidTarget(js)
    ensures r.failure.None? <==>
      (forall u :: u in r.cssAttempted ==> cssOk(u)) && (forall u :: u in r.jsAttempted ==> jsOk(u))
  {
    var c := TargetRun(css, cssOk);
    if c.result.Failed? then PluginRun(c.attempted, [], Some(LoadFailed(Css, c.result.url)))
    else
      var j := TargetRun(js, jsOk);
      PluginRun(c.attempted, j.attempted,
        if j.result.Failed? then Some(LoadFailed(Script, j.result.url)) else None)
  }

  /** Scripts are attempted only after every attempted stylesheet loaded; a CSS
      failure rejects the plugin with that error and no script is attempted; a
      script failure rejects it with the failing script's error. */
  lemma PluginCssFirst(css: Target, js: Target, cssOk: string -> bool, jsOk: string -> bool)
    requires ValidTarget(css) && ValidTarget(js)
    ensures var r := PluginLoad(css, js, cssOk, jsOk);
      && (r.jsAttempted != [] ==> forall u :: u in r.cssAttempted ==> cssOk(u))
      && (r.failure.Some? && r.failure.value.kind == Css ==>
            r.jsAttempted == [] && !cssOk(r.failure.value.url)
            && r.cssAttempted[|r.cssAttempted| - 1] == r.failure.value.url)
      && (r.failure.Some? && r.failure.value.kind == Script ==>
            !jsOk(r.failure.value.url) && r.jsAttempted[|r.jsAttempted| - 1] == r.failure.value.url)
  {
  }

  /** A resolved plugin load attempted every stylesheet and script it was given
      when both are single URLs. */
  lemma PluginAllLoaded(cssUrl: string, jsUrl: string, cssOk: string -> bool, jsOk: string -> bool)
    requires cssUrl != "" && jsUrl != ""
    ensures var r := PluginLoad(One(cssUrl), One(jsUrl), cssOk, jsOk);
      r.failure.None? <==> cssOk(cssUrl) && jsOk(jsUrl)
  {
  }

  /** The loader-call log of a run: each item tagged with its kind. */
  function Tag(kind: Kind, us: seq<string>): (r: seq<(Kind, string)>)
    ensures |r| == |us|
  {
    if us == [] then [] else [(kind, us[0])] + Tag(kind, us[1..])
  }

  /** A log extended by one call and then by a run's calls is extended by the
      whole run. */
  lemma TagCons(log0: seq<(Kind, string)>, log1: seq<(Kind, string)>, log2: seq<(Kind, string)>,
                kind: Kind, u: string, rest: seq<string>)
    requires log1 == log0 + [(kind, u)] && log2 == log1 + Tag(kind, rest)
    ensures log2 == log0 + Tag(kind, [u] + rest)
  {
  }
}

=== FILE: manager.dfy ===
/** RESOURCE_MANAGER: the two registries and the per-URL load state machine.
    A single-URL loadScript / loadCss is split at its one suspension point:
    `Request` is the synchronous part (lookup, short-circuit, join, or start of a
    DOM load) and `Settle` is the continuation that runs when the DOM load fires
    its load or error event. */
module Manager {
  import opened Resources
  import opened BatchLoad

  /** What a single-URL call hands back before anything settles: the record is
      already loaded (an immediately resolved signal), the caller joins the
      in-flight signal of a pending record, or a new DOM load was started. */
  datatype Response =
    | AlreadyLoaded(index: nat)
    | Joined(index: nat, signal: nat)
    | Started(index: nat, signal: nat)

  /** Whether a load of `u` resolves, as seen from registry `rs`: a fulfilled record
      short-circuits, anything else settles with the DOM outcome `dom(kind, u)`. */
  function EffectiveOutcome(rs: seq<Record>, kind: Kind, dom: (Kind, string) -> bool): string -> bool
  {
    u => IsFulfilled(rs, u) || dom(kind, u)
  }

  /** The registry of `kind` among the script and CSS registries. */
  function Pick(kind: Kind, scripts: seq<Record>, css: seq<Record>): seq<Record>
  {
    if kind == Script then scripts else css
  }

  /** Occurrences of `(kind, url)` in an event log. */
  ghost function Count(log: seq<(Kind, string)>, kind: Kind, url: string): nat
  {
    multiset(log)[(kind, url)]
  }

  /** For every url, the DOM loads started equal those settled, plus one while
      the url's record is pending. */
  ghost predicate Accounted(injections: seq<(Kind, string)>, settlements: seq<(Kind, string)>,
                            scripts: seq<Record>, css: seq<Record>)
  {
    forall k, u :: Count(injections, k, u) ==
      Count(settlements, k, u) + (if IsPending(Pick(k, scripts, css), u) then 1 else 0)
  }

  /** Appending a record that is not pending keeps the accounting. */
  lemma AccountedAppend(inj: seq<(Kind, string)>, st: seq<(Kind, string)>,
                        s: seq<Record>, c: seq<Record>, kind: Kind, r: Record)
    requires Accounted(inj, st, s, c) && r.state != Pending
    ensures Accounted(inj, st, if kind == Script then s + [r] else s, if kind == Css then c + [r] else c)
  {
    var s', c' := if kind == Script then s + [r] else s, if kind == Css then c + [r] else c;
    forall k, u ensures IsPending(Pick(k, s', c'), u) == IsPending(Pick(k, s, c), u) {
      if k == kind {
        StateAfterAppend(Pick(k, s, c), r, u);
      }
    }
  }

  /** Starting a DOM load for the found, non-pending record at `i` logs one
      injection and makes its url pending. */
  lemma AccountedStart(inj: seq<(Kind, string)>, st: seq<(Kind, string)>,
                       s: seq<Record>, c: seq<Record>, kind: Kind, i: nat, r: Record)
    requires Accounted(inj, st, s, c)
    requires i < |Pick(kind, s, c)| && r.url == Pick(kind, s, c)[i].url
    requires FindResource(Pick(kind, s, c), r.url) == Some(i)
    requires Pick(kind, s, c)[i].state != Pending && r.state == Pending
    ensures Accounted(inj + [(kind, r.url)], st,
                      if kind == Script then s[i := r] else s, if kind == Css then c[i := r] else c)
  {
    var s', c' := if kind == Script then s[i := r] else s, if kind == Css then c[i := r] else c;
    assert multiset(inj + [(kind, r.url)]) == multiset(inj) + multiset{(kind, r.url)};
    forall k, u ensures Count(inj + [(kind, r.url)], k, u) ==
                        Count(st, k, u) + (if IsPending(Pick(k, s', c'), u) then 1 else 0) {
      if k == kind {
        StateAfterUpdate(Pick(k, s, c), i, r, u);
      }
    }
  }

  /** Settling the pending record at `i` logs one settlement and ends the pending state. */
  lemma AccountedSettle(inj: seq<(Kind, string)>, st: seq<(Kind, string)>,
                        s: seq<Record>, c: seq<Record>, kind: Kind, i: nat, r: Record)
    requires Accounted(inj, st, s, c)
    requires i < |Pick(kind, s, c)| && r.url == Pick(kind, s, c)[i].url
    requires FindResource(Pick(kind, s, c), r.url) == Some(i)
    requires Pick(kind, s, c)[i].state == Pending && r.state != Pending
    ensures Accounted(inj, st + [(kind, r.url)],
                      if kind == Script then s[i := r] else s, if kind == Css then c[i := r] else c)
  {
    var s', c' := if kind == Script then s[i := r] else s, if kind == Css then c[i := r] else c;
    assert multiset(st + [(kind, r.url)]) == multiset(st) + multiset{(kind, r.url)};
    forall k, u ensures Count(inj, k, u) ==
                        Count(st + [(kind, r.url)], k, u) + (if IsPending(Pick(k, s', c'), u) then 1 else 0) {
      if k == kind {
        StateAfterUpdate(Pick(k, s, c), i, r, u);
      }
    }
  }

  /** The registry `rs1` left by loading the urls `attempted`, each settling with
      `dom(kind, u)` unless already fulfilled, starting from `rs0`: a url is fulfilled
      exactly when it was before or it was attempted and its DOM load succeeds, and
      every url not attempted keeps its state. */
  ghost predicate AfterLoads(rs0: seq<Record>, rs1: seq<Record>, kind: Kind, dom: (Kind, string) -> bool,
                       attempted: seq<string>)
  {
    && (forall u :: IsFulfilled(rs1, u) == (IsFulfilled(rs0, u) || (u in attempted && dom(kind, u))))
    && (forall u :: u !in attempted ==> StateOf(rs1, u) == StateOf(rs0, u))
  }

  /** Loading one url and then a run of further urls leaves the registry that
      loading the whole run does. */
  lemma AfterLoadsCons(rs0: seq<Record>, rs1: seq<Record>, rs2: seq<Record>, kind: Kind,
                       dom: (Kind, string) -> bool, url: string, rest: seq<string>)
    requires AfterLoads(rs0, rs1, kind, dom, [url]) && AfterLoads(rs1, rs2, kind, dom, rest)
    ensures AfterLoads(rs0, rs2, kind, dom, [url] + rest)
  {
  }

  /** The DOM-load log `i1` extends `i0` only by loads of kind `kind` for urls that
      were attempted and were not fulfilled in `rs0`: a fulfilled url starts no DOM
      load. */
  ghost predicate NewLoads(i0: seq<(Kind, string)>, i1: seq<(Kind, string)>, kind: Kind,
                           rs0: seq<Record>, attempted: seq<string>)
  {
    && |i0| <= |i1| && i1[..|i0|] == i0
    && forall j :: |i0| <= j < |i1| ==> i1[j].0 == kind && i1[j].1 in attempted && !IsFulfilled(rs0, i1[j].1)
  }

  /** A single-url call that starts a DOM load only for a url neither fulfilled nor
      pending starts no load of a fulfilled url. */
  lemma NewLoadsSingle(i0: seq<(Kind, string)>, i1: seq<(Kind, string)>, kind: Kind,
                       rs0: seq<Record>, url: string)
    requires i1 == i0 + (if StateOf(rs0, url) in {Some(Fulfilled), Some(Pending)} then [] else [(kind, url)])
    ensures NewLoads(i0, i1, kind, rs0, [url])
  {
    assert i1[..|i0|] == i0;
  }

  /** The DOM loads of one url followed by those of a run of further urls, the
      latter started from a registry where every url fulfilled before still is. */
  lemma NewLoadsCons(i0: seq<(Kind, string)>, i1: seq<(Kind, string)>, i2: seq<(Kind, string)>, kind: Kind,
                     rs0: seq<Record>, rs1: seq<Record>, url: string, rest: seq<string>)
    requires NewLoads(i0, i1, kind, rs0, [url]) && NewLoads(i1, i2, kind, rs1, rest)
    requires forall u :: IsFulfilled(rs0, u) ==> IsFulfilled(rs1, u)
    ensures NewLoads(i0, i2, kind, rs0, [url] + rest)
  {
    assert i2[..|i0|] == i1[..|i0|];
    forall j | |i0| <= j < |i2|
      ensures i2[j].0 == kind && i2[j].1 in [url] + rest && !IsFulfilled(rs0, i2[j].1)
    {
      if j < |i1| {
        assert i2[j] == i1[j];
      }
    }
  }

  /** Loads that fulfil only urls whose DOM load succeeds leave every url's
      effective outcome as it was. */
  lemma EffectiveKept(rs0: seq<Record>, rs1: seq<Record>, kind: Kind, dom: (Kind, string) -> bool,
                      attempted: seq<string>)
    requires AfterLoads(rs0, rs1, kind, dom, attempted)
    ensures forall u :: EffectiveOutcome(rs1, kind, dom)(u) == EffectiveOutcome(rs0, kind, dom)(u)
  {
  }

  class ResourceManager {
    var scripts: seq<Record>
    var css: seq<Record>
    /** The next fresh in-flight signal identifier. */
    var nextSignal: nat
    /** Every single-URL load call, in order (the per-item loader of a batch included). */
    ghost var calls: seq<(Kind, string)>
    /** Every invocation of a DOM loader primitive, in order. */
    ghost var injections: seq<(Kind, string)>
    /** Every settlement of a DOM load, in order. */
    ghost var settlements: seq<(Kind, string)>

    function Records(kind: Kind): seq<Record>
      reads this
    {
      Pick(kind, scripts, css)
    }

    ghost function Injected(kind: Kind, url: string): nat
      reads this
    {
      Count(injections, kind, url)
    }

    ghost function Settled(kind: Kind, url: string): nat
      reads this
    {
      Count(settlements, kind, url)
    }

    /** Both registries are well formed, and for every url the DOM loads started
        equal those settled plus one while its record is pending: at most one DOM
        load per url is ever in flight. */
    ghost predicate Valid()
      reads this
    {
      && WellFormed(scripts, nextSignal)
      && WellFormed(css, nextSignal)
      && Accounted(injections, settlements, scripts, css)
    }

    constructor ()
      ensures Valid()
      ensures scripts == [] && css == [] && calls == [] && injections == [] && settlements == []
    {
      scripts, css, nextSignal := [], [], 0;
      calls, injections, settlements := [], [], [];
    }

    method SetRecords(kind: Kind, rs: seq<Record>)
      modifies this
      ensures Records(kind) == rs && Records(Other(kind)) == old(Records(Other(kind)))
      ensures nextSignal == old(nextSignal) && calls == old(calls)
      ensures injections == old(injections) && settlements == old(settlements)
    {
      if kind == Script { scripts := rs; } else { css := rs; }
    }

    lemma InFlightAtMostOne(kind: Kind, url: string)
      requires Valid()
      ensures Settled(kind, url) <= Injected(kind, url) <= Settled(kind, url) + 1
      ensures Injected(kind, url) == Settled(kind, url) + 1 <==> IsPending(Records(kind), url)
    {
    }

    /** addNewResource: an empty url adds nothing; otherwise exactly one record
        `{url, state}` is appended at the end, with no duplicate check. */
    method AddNewResource(kind: Kind, url: string, state: State) returns (r: Option<nat>)
      modifies this
      ensures url == "" ==> r == None && Records(kind) == old(Records(kind))
      ensures url != "" ==>
        (r == Some(|old(Records(kind))|) && Records(kind) == old(Records(kind)) + [Record(url, state, None)])
      ensures Records(Other(kind)) == old(Records(Other(kind)))
      ensures nextSignal == old(nextSignal) && calls == old(calls)
      ensures injections == old(injections) && settlements == old(settlements)
      ensures old(Valid()) && state != Pending ==> Valid()
    {
      if url == "" {
        return None;
      }
      var rs := Records(kind);
      var rec := Record(url, state, None);
      if old(Valid()) && state != Pending {
        WellFormedAppend(rs, rec, nextSignal, nextSignal);
        AccountedAppend(injections, settlements, scripts, css, kind, rec);
      }
      SetRecords(kind, rs + [rec]);
      r := Some(|rs|);
    }

    /** initResources: folds the page's attribute values into the registry of `kind`. */
    method InitResources(kind: Kind, values: seq<string>)
      requires Valid()
      modifies this
      ensures Valid()
      ensures Records(kind) == Seed(old(Records(kind)), values)
      ensures Records(Other(kind)) == old(Records(Other(kind)))
      ensures nextSignal == old(nextSignal) && calls == old(calls)
      ensures injections == old(injections) && settlements == old(settlements)
    {
      ghost var rs0 := Records(kind);
      var i := 0;
      while i < |values|
        invariant 0 <= i <= |values|
        invariant Valid()
        invariant Records(kind) == Seed(rs0, values[..i])
        invariant Records(Other(kind)) == old(Records(Other(kind)))
        invariant nextSignal == old(nextSignal) && calls == old(calls)
        invariant injections == old(injections) && settlements == old(settlements)
      {
        assert values[..i + 1][..i] == values[..i];
        var src := values[i];
        i := i + 1;
        if src == "" {
          continue;
        }
        var check := FindResource(Records(kind), src);
        if check.Some? && Records(kind)[check.value].state != Rejected {
          continue;
        }
        var _ := AddNewResource(kind, src, Fulfilled);
      }
      assert values[..|values|] == values;
    }

    /** The synchronous part of a single-URL loadScript / loadCss. Lookup finds the
        first record for `url`, appending a `New` one when there is none. A
        fulfilled record returns at once and a pending one hands back its stored
        signal; neither invokes the DOM loader nor changes the registry. A new or
        rejected record becomes pending with a fresh signal, and the DOM loader is
        invoked exactly once. */
    method Request(kind: Kind, url: string) returns (resp: Response)
      requires Valid() && url != ""
      modifies this
      ensures Valid()
      ensures var rs := old(Records(kind)); var f := FindResource(rs, url);
        f.Some? && rs[f.value].state == Fulfilled ==>
          && resp == AlreadyLoaded(f.value)
          && Records(kind) == rs && nextSignal == old(nextSignal) && injections == old(injections)
      ensures var rs := old(Records(kind)); var f := FindResource(rs, url);
        f.Some? && rs[f.value].state == Pending ==>
          && rs[f.value].signal.Some?
          && resp == Joined(f.value, rs[f.value].signal.value)
          && Records(kind) == rs && nextSignal == old(nextSignal) && injections == old(injections)
      ensures var rs := old(Records(kind)); var f := FindResource(rs, url);
        f.Some? && rs[f.value].state in {New, Rejected} ==>
          && resp == Started(f.value, old(nextSignal))
          && Records(kind) == rs[f.value := Record(url, Pending, Some(old(nextSignal)))]
          && nextSignal == old(nextSignal) + 1
          && injections == old(injections) + [(kind, url)]
      ensures var rs := old(Records(kind));
        FindResource(rs, url).None? ==>
          && resp == Started(|rs|, old(nextSignal))
          && Records(kind) == rs + [Record(url, Pending, Some(old(nextSignal)))]
          && nextSignal == old(nextSignal) + 1
          && injections == old(injections) + [(kind, url)]
      ensures Records(Other(kind)) == old(Records(Other(kind)))
      ensures calls == old(calls) + [(kind, url)] && settlements == old(settlements)
    {
      calls := calls + [(kind, url)];
      var findings := FindResource(Records(kind), url);
      var idx: nat;
      if findings.None? {
        var added := AddNewResource(kind, url, New);
        idx := added.value;
        FindAppend(old(Records(kind)), Record(url, New, None), url);
      } else {
        idx := findings.value;
      }
      var rec := Records(kind)[idx];
      if rec.state == Fulfilled {
        return AlreadyLoaded(idx);
      }
      if rec.state == Pending {
        return Joined(idx, rec.signal.value);
      }
      var signal := Begin(kind, idx);
      resp := Started(idx, signal);
    }

    /** A new or rejected record becomes pending, stores a fresh in-flight signal,
        and the DOM loader primitive is invoked once for its url. */
    method Begin(kind: Kind, idx: nat) returns (signal: nat)
      requires Valid() && idx < |Records(kind)| && Records(kind)[idx].state in {New, Rejected}
      requires FindResource(Records(kind), Records(kind)[idx].url) == Some(idx)
      modifies this
      ensures Valid()
      ensures var url := old(Records(kind))[idx].url;
        && signal == old(nextSignal) && nextSignal == signal + 1
        && Records(kind) == old(Records(kind))[idx := Record(url, Pending, Some(signal))]
        && injections == old(injections) + [(kind, url)]
      ensures Records(Other(kind)) == old(Records(Other(kind)))
      ensures calls == old(calls) && settlements == old(settlements)
    {
      var rs := Records(kind);
      var url := rs[idx].url;
      signal := nextSignal;
      var pending := Record(url, Pending, Some(signal));
      WellFormedUpdate(rs, idx, pending, signal, signal + 1);
      AccountedStart(injections, settlements, scripts, css, kind, idx, pending);
      nextSignal := nextSignal + 1;
      SetRecords(kind, rs[idx := pending]);
      injections := injections + [(kind, url)];
      assert WellFormed(Records(Other(kind)), nextSignal);
    }

    /** The continuation of a started load: the DOM load of the pending record at
        `idx` settled with `ok`. The record becomes fulfilled (the signal resolves
        with the record) or rejected (the signal rejects with the load error), and
        the stored signal is removed either way, so a rejected url is retried by
        the next call. */
    method Settle(kind: Kind, idx: nat, ok: bool) returns (r: Result<nat>)
      requires Valid() && idx < |Records(kind)| && Records(kind)[idx].state == Pending
      modifies this
      ensures Valid()
      ensures var url := old(Records(kind))[idx].url;
        && Records(kind) == old(Records(kind))[idx := Record(url, if ok then Fulfilled else Rejected, None)]
        && settlements == old(settlements) + [(kind, url)]
        && r == if ok then Ok(idx) else Err(LoadFailed(kind, url))
      ensures Records(Other(kind)) == old(Records(Other(kind)))
      ensures nextSignal == old(nextSignal) && calls == old(calls) && injections == old(injections)
    {
      var rs := Records(kind);
      var url := rs[idx].url;
      var settled := Record(url, if ok then Fulfilled else Rejected, None);
      WellFormedUpdate(rs, idx, settled, nextSignal, nextSignal);
      AccountedSettle(injections, settlements, scripts, css, kind, idx, settled);
      SetRecords(kind, rs[idx := settled]);
      settlements := settlements + [(kind, url)];
      r := if ok then Ok(idx) else Err(LoadFailed(kind, url));
    }

    /** A single-URL call awaited to settlement, where every DOM load of `url`
        settles with `dom(kind, url)`; a caller that joins a pending load waits for
        that load. It resolves exactly when the url was fulfilled or its DOM load
        succeeds; the url is then fulfilled, and otherwise rejected; every other
        url keeps its state. */
    method LoadSingle(kind: Kind, url: string, dom: (Kind, string) -> bool) returns (r: Result<nat>)
      requires Valid() && url != ""
      modifies this
      ensures Valid()
      ensures r.Ok? <==> EffectiveOutcome(old(Records(kind)), kind, dom)(url)
      ensures r.Ok? ==> IsFulfilled(Records(kind), url) && FindResource(Records(kind), url) == Some(r.value)
      ensures IsFulfilled(old(Records(kind)), url) ==> r.Ok? && injections == old(injections)
      ensures r.Err? ==> r.error == LoadFailed(kind, url) && StateOf(Records(kind), url) == Some(Rejected)
      ensures AfterLoads(old(Records(kind)), Records(kind), kind, dom, [url])
      ensures injections == old(injections) +
        (if StateOf(old(Records(kind)), url) in {Some(Fulfilled), Some(Pending)} then [] else [(kind, url)])
      ensures |Records(kind)| == |old(Records(kind))| + (if StateOf(old(Records(kind)), url).None? then 1 else 0)
      ensures Records(Other(kind)) == old(Records(Other(kind)))
      ensures calls == old(calls) + [(kind, url)]
    {
      ghost var rs0 := Records(kind);
      assert EffectiveOutcome(rs0, kind, dom)(url) == (IsFulfilled(rs0, url) || dom(kind, url));
      var resp := Request(kind, url);
      ghost var rs1 := Records(kind);
      ghost var final := Some(if dom(kind, url) then Fulfilled else Rejected);
      match resp {
        case AlreadyLoaded(i) =>
          r := Ok(i);
        case Joined(i, _) =>
          r := Settle(kind, i, dom(kind, url));
          FindUpdate(rs1, i, Records(kind)[i], url);
          forall u ensures StateOf(Records(kind), u) == if u == url then final else StateOf(rs0, u) {
            StateAfterUpdate(rs1, i, Records(kind)[i], u);
          }
        case Started(i, _) =>
          r := Settle(kind, i, dom(kind, url));
          if FindResource(rs0, url).Some? {
            FirstMatch(rs1, url, i);
          } else {
            FindAppend(rs0, rs1[i], url);
          }
          FindUpdate(rs1, i, Records(kind)[i], url);
          forall u ensures StateOf(Records(kind), u) == if u == url then final else StateOf(rs0, u) {
            StateAfterUpdate(rs1, i, Records(kind)[i], u);
            if FindResource(rs0, url).Some? {
              StateAfterUpdate(rs0, i, rs1[i], u);
            } else {
              StateAfterAppend(rs0, rs1[i], u);
            }
          }
      }
    }

    /** recursiveLoad with this manager's single-URL load as the per-item loader:
        the batch settles as the pure `RecursiveLoad` does with the outcome each
        url has at the start, and the loader is called for exactly the items it
        attempts, in order. Every attempted url but a failing one ends fulfilled,
        the failing one ends rejected, and urls not attempted keep their state. */
    method LoadBatch(kind: Kind, urls: seq<string>, counter: nat, dom: (Kind, string) -> bool)
      returns (result: BatchResult)
      requires Valid()
      modifies this
      decreases |urls|, 1
      ensures Valid()
      ensures var run := RecursiveLoad(urls, EffectiveOutcome(old(Records(kind)), kind, dom), counter);
        && result == run.result && calls == old(calls) + Tag(kind, run.attempted)
        && AfterLoads(old(Records(kind)), Records(kind), kind, dom, run.attempted)
        && NewLoads(old(injections), injections, kind, old(Records(kind)), run.attempted)
        && (forall u :: u in run.attempted && !(result.Failed? && u == result.url) ==> IsFulfilled(Records(kind), u))
      ensures result.Failed? ==> StateOf(Records(kind), result.url) == Some(Rejected)
      ensures Records(Other(kind)) == old(Records(Other(kind)))
    {
      if |urls| == 0 {
        return Done;
      }
      if counter > MaxRecursiveLoad {
        return LimitReached;
      }
      if urls[0] == "" {
        result := LoadBatch(kind, urls[1..], 0, dom);
        return;
      }
      result := LoadFirst(kind, urls, counter, dom);
    }

    /** One step of recursiveLoad on a non-empty first item below the limit: load
        it; on success continue with the rest and the counter increased, on
        failure reject with its url. */
    method LoadFirst(kind: Kind, urls: seq<string>, counter: nat, dom: (Kind, string) -> bool)
      returns (result: BatchResult)
      requires Valid() && |urls| > 0 && urls[0] != "" && counter <= MaxRecursiveLoad
      modifies this
      decreases |urls|, 0
      ensures Valid()
      ensures var run := RecursiveLoad(urls, EffectiveOutcome(old(Records(kind)), kind, dom), counter);
        && result == run.result && calls == old(calls) + Tag(kind, run.attempted)
        && AfterLoads(old(Records(kind)), Records(kind), kind, dom, run.attempted)
        && NewLoads(old(injections), injections, kind, old(Records(kind)), run.attempted)
        && (forall u :: u in run.attempted && !(result.Failed? && u == result.url) ==> IsFulfilled(Records(kind), u))
      ensures result.Failed? ==> StateOf(Records(kind), result.url) == Some(Rejected)
      ensures Records(Other(kind)) == old(Records(Other(kind)))
    {
      ghost var rs0 := Records(kind);
      ghost var ok0 := EffectiveOutcome(rs0, kind, dom);
      var url := urls[0];
      var r := LoadSingle(kind, url, dom);
      NewLoadsSingle(old(injections), injections, kind, rs0, url);
      if r.Err? {
        assert RecursiveLoad(urls, ok0, counter) == BatchRun([url], Failed(url));
        TagCons(old(calls), calls, calls, kind, url, []);
        assert [url] + [] == [url];
        return Failed(url);
      }
      ghost var rs1 := Records(kind);
      ghost var calls1 := calls;
      ghost var injections1 := injections;
      EffectiveKept(rs0, rs1, kind, dom, [url]);
      RecursiveLoadCongruent(urls[1..], EffectiveOutcome(rs1, kind, dom), ok0, counter + 1);
      ghost var rest := RecursiveLoad(urls[1..], ok0, counter + 1);
      RecursiveLoadStep(urls, ok0, counter);
      result := LoadBatch(kind, urls[1..], counter + 1, dom);
      TagCons(old(calls), calls1, calls, kind, url, rest.attempted);
      AfterLoadsCons(rs0, rs1, Records(kind), kind, dom, url, rest.attempted);
      NewLoadsCons(old(injections), injections1, injections, kind, rs0, rs1, url, rest.attempted);
    }

    /** loadScript / loadCss on either form of argument. A single url resolves
        with its record (`record`, the index lookup finds); an array resolves with
        no value. */
    method Load(kind: Kind, target: Target, dom: (Kind, string) -> bool)
      returns (result: BatchResult, record: Option<nat>)
      requires Valid() && ValidTarget(target)
      modifies this
      ensures Valid()
      ensures var run := TargetRun(target, EffectiveOutcome(old(Records(kind)), kind, dom));
        && result == run.result && calls == old(calls) + Tag(kind, run.attempted)
        && AfterLoads(old(Records(kind)), Records(kind), kind, dom, run.attempted)
        && NewLoads(old(injections), injections, kind, old(Records(kind)), run.attempted)
        && (forall u :: u in run.attempted && !(result.Failed? && u == result.url) ==> IsFulfilled(Records(kind), u))
      ensures result.Failed? ==> StateOf(Records(kind), result.url) == Some(Rejected)
      ensures target.One? ==> (record.Some? <==> result == Done)
      ensures target.One? && record.Some? ==> FindResource(Records(kind), target.url) == record
      ensures target.Many? ==> record == None
      ensures Records(Other(kind)) == old(Records(Other(kind)))
    {
      match target {
        case Many(urls) =>
          result := LoadBatch(kind, urls, 0, dom);
          record := None;
        case One(url) =>
          var r := LoadSingle(kind, url, dom);
          result := if r.Ok? then Done else Failed(url);
          record := if r.Ok? then Some(r.value) else None;
      }
    }

    /** loadPlugin: the stylesheets first; the scripts only once they resolved.
        Each registry is left as loading its attempted urls leaves it, and the
        url a failure names ends rejected in the registry of its kind. */
    method LoadPlugin(cssTarget: Target, jsTarget: Target, dom: (Kind, string) -> bool)
      returns (failure: Option<Error>)
      requires Valid() && ValidTarget(cssTarget) && ValidTarget(jsTarget)
      modifies this
      ensures Valid()
      ensures var run := PluginLoad(cssTarget, jsTarget,
                EffectiveOutcome(old(css), Css, dom), EffectiveOutcome(old(scripts), Script, dom));
        && failure == run.failure
        && calls == old(calls) + Tag(Css, run.cssAttempted) + Tag(Script, run.jsAttempted)
        && AfterLoads(old(css), css, Css, dom, run.cssAttempted)
        && AfterLoads(old(scripts), scripts, Script, dom, run.jsAttempted)
        && exists m :: |old(injections)| <= m <= |injections|
             && NewLoads(old(injections), injections[..m], Css, old(css), run.cssAttempted)
             && NewLoads(injections[..m], injections, Script, old(scripts), run.jsAttempted)
      ensures failure.Some? ==> StateOf(Records(failure.value.kind), failure.value.url) == Some(Rejected)
    {
      var c, _ := Load(Css, cssTarget, dom);
      ghost var injections1 := injections;
      assert injections[..|injections|] == injections;
      if c.Failed? {
        return Some(LoadFailed(Css, c.url));
      }
      var j, _ := Load(Script, jsTarget, dom);
      assert injections[..|injections1|] == injections1;
      if j.Failed? {
        return Some(LoadFailed(Script, j.url));
      }
      return None;
    }
  }

  /** Once a load of a url has resolved, a further call for it short-circuits and
      starts no DOM load. */
  method LoadThenReload(m: ResourceManager, kind: Kind, url: string, dom: (Kind, string) -> bool)
    returns (first: Result<nat>, second: Response, ghost loadsBetween: nat)
    requires m.Valid() && url != ""
    modifies m
    ensures first.Ok? ==> second.AlreadyLoaded? && loadsBetween == 0
  {
    first := m.LoadSingle(kind, url, dom);
    ghost var before := |m.injections|;
    second := m.Request(kind, url);
    loadsBetween := |m.injections| - before;
  }

  /** Two calls for one url before the first settles share one signal and one DOM
      load; after a failure the next call starts a new DOM load; after success a
      further call short-circuits. */
  method SharedLoadThenRetry() returns (first: Response, second: Response, afterFailure: Response,
                                        afterSuccess: Response, ghost domLoads: nat)
    ensures first.Started? && second == Joined(first.index, first.signal)
    ensures afterFailure.Started? && afterFailure.index == first.index && afterFailure.signal != first.signal
    ensures afterSuccess == AlreadyLoaded(first.index)
    ensures domLoads == 2
  {
    var m := new ResourceManager();
    first := m.Request(Script, "a.js");
    second := m.Request(Script, "a.js");
    assert |m.injections| == 1;
    var failed := m.Settle(Script, first.index, false);
    afterFailure := m.Request(Script, "a.js");
    var loaded := m.Settle(Script, afterFailure.index, true);
    afterSuccess := m.Request(Script, "a.js");
    domLoads := |m.injections|;
  }

  /** A script found on the page at startup is not loaded again. */
  method StartupScanSkipsReload() returns (resp: Response, ghost domLoads: nat)
    ensures resp.AlreadyLoaded? && domLoads == 0
  {
    var m := new ResourceManager();
    m.InitResources(Script, ["", "a.js", "a.js"]);
    SeedLookup([], ["", "a.js", "a.js"], "a.js");
    resp := m.Request(Script, "a.js");
    domLoads := |m.injections|;
  }
}

=== FILE: resources.dfy ===
/** Resource records and the per-kind registry: first-match lookup, and the
    fold that seeds a registry from the resources already on the page. */
module Resources {

  datatype Option<T> = None | Some(value: T)

  /** The two kinds of resource the manager tracks; each kind has its own registry. */
  datatype Kind = Script | Css

  function Other(k: Kind): (o: Kind)
    ensures o != k
  {
    if k == Script then Css else Script
  }

  /** Load state of a record. */
  datatype State = New | Pending | Fulfilled | Rejected

  /** A registry entry. `signal` identifies the in-flight completion handle
      that concurrent callers share; it is present only while the record is pending. */
  datatype Record = Record(url: string, state: State, signal: Option<nat>)

  /** The error a failed DOM load rejects with: it names the resource kind and the URL. */
  datatype Error = LoadFailed(kind: Kind, url: string)

  /** A settled completion signal: resolved with a value, or rejected with an error. */
  datatype Result<T> = Ok(value: T) | Err(error: Error)

  /** Linear scan for the first record with the given url, starting at `from`. */
  function FindFrom(rs: seq<Record>, url: string, from: nat): (r: Option<nat>)
    requires from <= |rs|
    ensures r.Some? ==> from <= r.value < |rs| && rs[r.value].url == url
    ensures r.Some? ==> forall j :: from <= j < r.value ==> rs[j].url != url
    ensures r.None? ==> forall j :: from <= j < |rs| ==> rs[j].url != url
    decreases |rs| - from
  {
    if from == |rs| then None
    else if rs[from].url == url then Some(from)
    else FindFrom(rs, url, from + 1)
  }

  /** findResource: the index of the FIRST record whose url equals `url`, or
      None when the registry holds no such record. */
  function FindResource(rs: seq<Record>, url: string): (r: Option<nat>)
    ensures r.Some? ==> r.value < |rs| && rs[r.value].url == url
    ensures r.Some? ==> forall j :: 0 <= j < r.value ==> rs[j].url != url
    ensures r.None? <==> forall j :: 0 <= j < |rs| ==> rs[j].url != url
  {
    FindFrom(rs, url, 0)
  }

  /** The state of the record that lookup finds for `url` (later duplicates are shadowed). */
  function StateOf(rs: seq<Record>, url: string): Option<State>
  {
    match FindResource(rs, url)
    case Some(i) => Some(rs[i].state)
    case None => None
  }

  predicate IsFulfilled(rs: seq<Record>, url: string)
  {
    StateOf(rs, url) == Some(Fulfilled)
  }

  predicate IsPending(rs: seq<Record>, url: string)
  {
    StateOf(rs, url) == Some(Pending)
  }

  /** Number of records registered under `url`, shadowed ones included. */
  function CountUrl(rs: seq<Record>, url: string): nat
  {
    if rs == [] then 0
    else CountUrl(rs[..|rs| - 1], url) + (if rs[|rs| - 1].url == url then 1 else 0)
  }

  /** Registry invariant kept by the manager: a signal is stored exactly while a
      record is pending, every stored signal was handed out before `nextSignal`,
      and a pending record is always the one lookup finds for its url. */
  ghost predicate WellFormed(rs: seq<Record>, nextSignal: nat)
  {
    forall i :: 0 <= i < |rs| ==>
      && (rs[i].signal.Some? <==> rs[i].state == Pending)
      && (rs[i].signal.Some? ==> rs[i].signal.value < nextSignal)
      && (rs[i].state == Pending ==> FindResource(rs, rs[i].url) == Some(i))
  }

  /** A record matching `url` with no match before it is what lookup finds. */
  lemma FirstMatch(rs: seq<Record>, url: string, k: nat)
    requires k < |rs| && rs[k].url == url
    requires forall j :: 0 <= j < k ==> rs[j].url != url
    ensures FindResource(rs, url) == Some(k)
  {
  }

  /** Appending never changes what lookup finds for a url already present:
      a duplicate appended later is shadowed by the first match. */
  lemma FindAppend(rs: seq<Record>, r: Record, url: string)
    ensures FindResource(rs + [r], url) ==
      if FindResource(rs, url).Some? then FindResource(rs, url)
      else if r.url == url then Some(|rs|)
      else None
  {
    var f := FindResource(rs, url);
    if f.Some? {
      FirstMatch(rs + [r], url, f.value);
    } else if r.url == url {
      FirstMatch(rs + [r], url, |rs|);
    } else {
      assert forall j :: 0 <= j < |rs + [r]| ==> (rs + [r])[j].url != url;
    }
  }

  /** Replacing a record by one with the same url does not change any lookup. */
  lemma FindUpdate(rs: seq<Record>, i: nat, r: Record, url: string)
    requires i < |rs| && r.url == rs[i].url
    ensures FindResource(rs[i := r], url) == FindResource(rs, url)
  {
    var f := FindResource(rs, url);
    if f.Some? {
      FirstMatch(rs[i := r], url, f.value);
    } else {
      assert forall j :: 0 <= j < |rs| ==> rs[i := r][j].url == rs[j].url;
    }
  }

  lemma StateAfterAppend(rs: seq<Record>, r: Record, url: string)
    ensures StateOf(rs + [r], url) ==
      if StateOf(rs, url).Some? then StateOf(rs, url)
      else if r.url == url then Some(r.state)
      else None
  {
    FindAppend(rs, r, url);
    if FindResource(rs, url).Some? {
      assert (rs + [r])[FindResource(rs, url).value] == rs[FindResource(rs, url).value];
    }
  }

  /** Updating the record lookup finds for its url changes only that url's state. */
  lemma StateAfterUpdate(rs: seq<Record>, i: nat, r: Record, url: string)
    requires i < |rs| && r.url == rs[i].url && FindResource(rs, r.url) == Some(i)
    ensures StateOf(rs[i := r], url) == if url == r.url then Some(r.state) else StateOf(rs, url)
  {
    FindUpdate(rs, i, r, url);
  }

  lemma WellFormedAppend(rs: seq<Record>, r: Record, n: nat, n': nat)
    requires WellFormed(rs, n) && n <= n'
    requires r.signal.Some? <==> r.state == Pending
    requires r.signal.Some? ==> r.signal.value < n'
    requires r.state == Pending ==> FindResource(rs, r.url).None?
    ensures WellFormed(rs + [r], n')
  {
  }

  lemma WellFormedUpdate(rs: seq<Record>, i: nat, r: Record, n: nat, n': nat)
    requires WellFormed(rs, n) && n <= n' && i < |rs| && r.url == rs[i].url
    requires r.signal.Some? <==> r.state == Pending
    requires r.signal.Some? ==> r.signal.value < n'
    requires r.state == Pending ==> FindResource(rs, r.url) == Some(i)
    ensures WellFormed(rs[i := r], n')
  {
  }

  /** One step of initResources: an empty attribute value is ignored; a value is
      appended as a fulfilled record unless lookup already finds a record for it
      that is not rejected. */
  function SeedOne(rs: seq<Record>, src: string): (r: seq<Record>)
    ensures r == rs || (src != "" && r == rs + [Record(src, Fulfilled, None)])
    ensures r != rs <==> src != "" && (StateOf(rs, src).None? || StateOf(rs, src) == Some(Rejected))
  {
    if src == "" then rs
    else match FindResource(rs, src)
      case Some(i) => if rs[i].state != Rejected then rs else rs + [Record(src, Fulfilled, None)]
      case None => rs + [Record(src, Fulfilled, None)]
  }

  /** initResources over a list of attribute values, in document order. */
  function Seed(rs: seq<Record>, values: seq<string>): (r: seq<Record>)
    ensures |rs| <= |r| <= |rs| + |values| && r[..|rs|] == rs
  {
    if values == [] then rs
    else SeedOne(Seed(rs, values[..|values| - 1]), values[|values| - 1])
  }

  /** Seeding keeps every earlier record as it was and appends only fulfilled,
      signal-free records for non-empty values taken from the page. */
  lemma {:induction false} SeedExtends(rs: seq<Record>, values: seq<string>)
    ensures |Seed(rs, values)| >= |rs| && Seed(rs, values)[..|rs|] == rs
    ensures forall j :: |rs| <= j < |Seed(rs, values)| ==>
      && Seed(rs, values)[j].state == Fulfilled
      && Seed(rs, values)[j].signal == None
      && Seed(rs, values)[j].url != ""
      && Seed(rs, values)[j].url in values
  {
    if values != [] {
      var init := values[..|values| - 1];
      SeedExtends(rs, init);
      var mid := Seed(rs, init);
      assert forall v :: v in init ==> v in values;
      assert Seed(rs, values) == SeedOne(mid, values[|values| - 1]);
      if SeedOne(mid, values[|values| - 1]) != mid {
        assert Seed(rs, values) == mid + [Record(values[|values| - 1], Fulfilled, None)];
        assert Seed(rs, values)[..|mid|] == mid;
      }
    }
  }

  /** After seeding, lookup of `url` still finds whatever record it found before
      (a rejected record is NOT overridden by the page); a url not registered
      before is found fulfilled when a non-empty value on the page names it. */
  lemma {:induction false} SeedLookup(rs: seq<Record>, values: seq<string>, url: string)
    ensures FindResource(rs, url).Some? ==> FindResource(Seed(rs, values), url) == FindResource(rs, url)
    ensures StateOf(Seed(rs, values), url) ==
      if StateOf(rs, url).Some? || url == "" || url !in values then StateOf(rs, url)
      else Some(Fulfilled)
  {
    if values != [] {
      var init, last := values[..|values| - 1], values[|values| - 1];
      assert values == init + [last];
      SeedLookup(rs, init, url);
      SeedExtends(rs, init);
      var mid := Seed(rs, init);
      if FindResource(rs, url).Some? {
        assert mid[FindResource(rs, url).value] == rs[FindResource(rs, url).value];
      }
      if SeedOne(mid, last) != mid {
        FindAppend(mid, Record(last, Fulfilled, None), url);
        StateAfterAppend(mid, Record(last, Fulfilled, None), url);
      }
    }
  }

  lemma CountAppend(rs: seq<Record>, r: Record, url: string)
    ensures CountUrl(rs + [r], url) == CountUrl(rs, url) + (if r.url == url then 1 else 0)
  {
  }

  /** How many records seeding adds under `url`: none for the empty value or a url
      whose first record is not rejected; one for a new url that appears on the
      page; and one PER OCCURRENCE on the page when the first record is rejected,
      since the fulfilled record appended for it is shadowed and never found. */
  lemma {:induction false} SeedCount(rs: seq<Record>, values: seq<string>, url: string)
    ensures CountUrl(Seed(rs, values), url) == CountUrl(rs, url) +
      if url == "" then 0
      else match FindResource(rs, url)
        case None => if url in values then 1 else 0
        case Some(i) => if rs[i].state == Rejected then multiset(values)[url] else 0
  {
    if values != [] {
      var init, last := values[..|values| - 1], values[|values| - 1];
      assert values == init + [last];
      assert multiset(values)[url] == multiset(init)[url] + (if last == url then 1 else 0);
      assert url in values <==> url in init || url == last;
      SeedCount(rs, init, url);
      var mid := Seed(rs, init);
      var r := Record(last, Fulfilled, None);
      if SeedOne(mid, last) != mid {
        assert Seed(rs, values) == mid + [r];
        CountAppend(mid, r, url);
      } else {
        assert Seed(rs, values) == mid;
      }
      if last == url && url != "" {
        SeedLookup(rs, init, url);
      }
    }
  }
}
